=== FILE: README.md ===
# US bikeshare explorer: filter and statistics model

A Dafny model of the logic underneath `bikeshare.py`. The script is an
interactive explorer of bike-share trips. The user picks a city, a month
(January to June, or All) and a weekday (or All). The script loads that
city's trips and filters them. It then prints frequency statistics:
- the busiest and quietest months, weekdays and start hours;
- the three most and three least used start stations, end stations and routes;
- the total travel time, and trip durations split by gender and by age group;
- user-type and gender counts, and the earliest, latest and most common birth year;
- a chosen number of raw rows.

The model states all of this over an immutable `seq<Trip>`:
- A `Trip` already carries its derived calendar fields: month number, weekday name, weekday number and hour.
- Empty (NaN) demographic cells are `None`.
- Python exceptions the script would raise (KeyError, ValueError, IndexError) are returned as `Result` values.
- Each re-prompt loop reads from a finite stream of answers.
- The current calendar year is a parameter.

Modules, in dependency order:
- `Errors`: option and result values.
- `Seqs`: counts, boolean-mask selection, subsequences, distinct values.
- `Filters`: the fixed vocabularies and `get_filters`.
- `Trips`: the trip record and its columns.
- `Frequency`: `value_counts`, `idxmax`/`idxmin`, top-3 and bottom-3.
- `Loader`: `load_data`.
- `TimeStats`, `StationStats`, `DurationStats`, `UserStats`, `RawData`: one module per reporter.

`value_counts` is modelled as a full ordering of the distinct values by non-increasing count:
- The top three are its first three entries.
- The bottom three are its last three, least frequent first.
- `idxmax`/`idxmin` pick a value of largest/smallest count.

The library's order among equal counts is not modelled. Every property speaks of counts, except one: which of several tied months `time_stats` names decides whether it raises IndexError (see `TimeStats` under Left out).

The four age groups computed at `bikeshare.py:279-282` are disjoint. The
defect is only in the series passed to the stacked histogram (see Findings).

## Model

| member | source | states |
|---|---|---|
| `Filters.IndexOf` | bikeshare.py:107 | `list.index`: the first position holding the value, or ValueError exactly when the value is absent |
| `Filters.MonthIndex` | bikeshare.py:18-19 | a month name's index in `month_list`: 0 exactly for "All", 1 to 6 for January to June, ValueError outside the list |
| `Filters.ReadPass` | bikeshare.py:37-66 | one pass of the four prompts: the city is the first line in `CITY_DATA`, the month the first later line in `month_list`, the day the first later line in `day_list`, the answer the first later "y" or "n"; every line skipped on the way was rejected by its prompt |
| `Filters.ReadPassComplete` | bikeshare.py:37-66 | a pass is read exactly when the remaining lines hold a city, then later a month, then a day, then a "y"/"n" answer; otherwise the answers run out |
| `Filters.GetFilters` | bikeshare.py:36-73 | the result starts after a run of whole passes each declined by "n"; a confirmed selection is the city, month and day its pass read, answered "y", so it lies in `CITY_DATA`, `month_list` and `day_list`; the answers run out only when no whole pass is left |
| `Filters.FirstPassConfirmed` | bikeshare.py:62-69 | a valid city, month and day followed by "y" are returned at once, with the positions of those four lines |
| `Filters.DeclinedPassRestarts` | bikeshare.py:68-71 | an "n" answer discards the pass: the result is what the prompts give when started again after that answer |
| `Seqs.Select` | bikeshare.py:109 | a boolean mask keeps only rows satisfying it, keeps every such row as often as the table holds it, and never grows the table |
| `Seqs.SelectIsSubsequence` | bikeshare.py:109-113 | a masked table is an order-preserving subsequence of the table it came from |
| `Seqs.SelectSelect` | bikeshare.py:106-113 | two masks applied in turn equal the single mask that requires both (AND semantics) |
| `Seqs.SelectEverything` | bikeshare.py:108-113 | a mask true on every row leaves the table unchanged |
| `Seqs.NextWhere` | bikeshare.py:40-42 | a re-prompt loop stops at the first acceptable answer; every answer skipped before it was rejected |
| `Trips.Present` | bikeshare.py:309-315 | dropping empty cells keeps each value as often as the column holds it and nothing else, so its length is the number of non-empty cells |
| `Loader.ByMonth` | bikeshare.py:108-109 | under "All" the table unchanged; otherwise only rows of the selected month, each as often as the table holds it; partners `FiltersAreOneMask`, `FilteredRows` |
| `Loader.ByDay` | bikeshare.py:112-113 | under "All" the table unchanged; otherwise only rows of the selected weekday, each as often as the table holds it; partners `FiltersAreOneMask`, `FilteredRows` |
| `Loader.FiltersAreOneMask` | bikeshare.py:106-113 | the month filter followed by the day filter keeps exactly the rows matching both selections |
| `Loader.FilteredRows` | bikeshare.py:106-113 | the month and day filters keep, in order, exactly the rows meeting the selection, each as often as the file holds it |
| `Loader.LoadData` | bikeshare.py:91-116 | KeyError for an unknown city, ValueError for a month outside `month_list`; otherwise the full table is the loaded rows unchanged, and the filtered table is a subsequence of it; its rows are exactly the matching rows with their multiplicities; under a month every row's month number is that month's index (1 to 6); under a day every row has that weekday; under All/All it equals the full table |
| `Frequency.ValueCounts` | bikeshare.py:203 | every distinct value of the column appears once, and counts never increase along the list |
| `Frequency.Extreme` | bikeshare.py:130-132 | `idxmax`/`idxmin`: a value of the column whose count is at least (at most) every other value's; ValueError on an empty column |
| `Frequency.MostAndLeast` | bikeshare.py:152-155 | the most common and least common value of a non-empty column; ValueError on an empty one |
| `Frequency.TopThree` | bikeshare.py:203-208 | three distinct values with non-increasing counts, none outranked by a value left out; IndexError with fewer than three distinct values |
| `Frequency.BottomThree` | bikeshare.py:209-213 | three distinct values with non-decreasing counts, none outranked in rarity by a value left out; IndexError with fewer than three distinct values |
| `Frequency.BottomNeverOutranksTop` | bikeshare.py:203-213 | with at least five distinct values every bottom entry's count is at most every top entry's count |
| `Frequency.TopAndBottomDisjoint` | bikeshare.py:203-213 | with at least six distinct values the most-common and least-common lists share no value |
| `Frequency.FewValuesOverlap` | bikeshare.py:203-213 | with exactly three distinct values the least-common list contains the most common value |
| `Frequency.OneLeaderOutranks` | bikeshare.py:203-213 | with exactly three distinct values, one strictly the most frequent, the last least-common entry is strictly more frequent than the third most-common entry |
| `Frequency.BottomCanOutrankTop` | bikeshare.py:203-213 | for the column `[1, 1, 2, 3]` a least-common entry is strictly more frequent than a most-common entry |
| `Frequency.Tally` | bikeshare.py:305-310 | each distinct value once with its positive count, in non-increasing order of count |
| `Frequency.TallyTotal` | bikeshare.py:305-310 | the printed counts add up to the number of rows counted |
| `TimeStats.MonthName` | bikeshare.py:131 | `month_list[m]`, and IndexError past June |
| `TimeStats.Stats` | bikeshare.py:129-181 | reports exactly when the table is non-empty, its most and least common months are January to June, the month is in `month_list` and the selected month and day keep a row; ValueError on an empty table, IndexError for a most or least common month past June, ValueError for a month outside `month_list` or an empty selection; the report gives most/least common month over the unfiltered table with its name, weekday within the selected month, hour within the selected month and day |
| `TimeStats.MonthWithoutTripsRaises` | bikeshare.py:146-153 | selecting a month in which no trip starts never yields a report; once the month step succeeds it raises ValueError at the weekday step |
| `TimeStats.HoursOverLoadedTable` | bikeshare.py:169-178 | the hour extremes are the most/least common hours of the very table `load_data` filters for the same selection |
| `TimeStats.MonthStepByCounts` | bikeshare.py:130-133 | the month step passes when every most common and every least common month is January to June, and raises IndexError when every most common (or every least common) month is July or later |
| `TimeStats.MonthBins` | bikeshare.py:136 | six bars, each at most the number of month values and non-zero exactly when its month occurs; partners `BinsCountInRange`, `MonthHistogramTotal` |
| `TimeStats.BinsCountInRange` | bikeshare.py:136 | every month value falls in exactly one of the six unit bins over (0.5, 6.5) or outside all of them |
| `TimeStats.NothingOutOfRange` | bikeshare.py:136 | no month value falls outside the bins exactly when every value is 1 to 6 |
| `TimeStats.MonthHistogramTotal` | bikeshare.py:136 | the six month bars count at most the unfiltered table's rows, and all of them exactly when every trip starts in January to June |
| `StationStats.RouteKey` | bikeshare.py:229 | the start station, then the separator " --> ", then the end station, in that order and nothing else; partners `SplitRoute`, `SplitRouteInverse`, `RouteKeyInjective` |
| `StationStats.SplitRoute` | bikeshare.py:229 | a split key rebuilds into the same key, with a start station free of '>' |
| `StationStats.SplitRouteInverse` | bikeshare.py:229 | a route key (start, " --> ", end) splits back into its two stations when the start station has no '>' |
| `StationStats.RouteKeyInjective` | bikeshare.py:229 | equal route keys mean equal start and end stations when start stations have no '>' |
| `StationStats.RouteCountBounded` | bikeshare.py:229-230 | a route is used no more often than its start station or its end station |
| `StationStats.ApartFromSix` | bikeshare.py:203-213 | the top and bottom lists of one column share no value once it has six distinct values |
| `StationStats.Stats` | bikeshare.py:203-240 | top and bottom three start stations, end stations and routes in the sense of `TopThree`/`BottomThree`; for a column with six or more distinct values its two lists share no value (`TopAndBottomDisjoint`); IndexError unless each column has three distinct values |
| `DurationStats.TotalDuration` | bikeshare.py:253 | the sum of the trip durations: non-negative when every duration is, non-positive when every duration is; partners `TotalDurationAppend`, `TotalDurationSplit` |
| `DurationStats.TotalDurationAppend` | bikeshare.py:253 | the total duration of two tables together is the sum of their totals |
| `DurationStats.TotalDurationSplit` | bikeshare.py:253 | any mask splits the total duration exactly between kept and dropped rows |
| `DurationStats.FilteredTotalBounded` | bikeshare.py:253 | with non-negative durations a filtered table's total lies between 0 and the full table's total |
| `DurationStats.SplitByGender` | bikeshare.py:263-264 | the male and female groups hold only rows of that gender, and between them every male or female row as often as the table; other or missing genders fall in neither |
| `DurationStats.Age` | bikeshare.py:277-278 | a rider's age plus birth year is the current year; no age without a birth year |
| `DurationStats.AgeGroup` | bikeshare.py:279-282 | one age group holds only rows of its age range, and every such row as often as the table does |
| `DurationStats.SplitByAge` | bikeshare.py:279-282 | each group's rows lie in its age range; the four groups are pairwise disjoint; together they hold every row with a birth year as often as the table does, and no row without one |
| `DurationStats.PlottedAgeSeries` | bikeshare.py:285-287 | as written, four series that agree with the corrected ones in the first three and repeat the third as the fourth; partners `PlottedSeriesDropFiftyUp`, `PlottedSeriesDoubleForties` |
| `DurationStats.CorrectedAgeSeries` | bikeshare.py:279-287 | one series per age group, so a row is stacked once for each group holding it; partner `CorrectedSeriesStackEachRowOnce` |
| `DurationStats.PlottedSeriesDropFiftyUp` | bikeshare.py:285-287 | as written, the plotted series stack no rider aged 50 or over |
| `DurationStats.PlottedSeriesDoubleForties` | bikeshare.py:285-287 | as written, the plotted series stack every rider in their forties twice per occurrence |
| `DurationStats.CorrectedSeriesStackEachRowOnce` | bikeshare.py:285-287 | the corrected series stack each row with a known age exactly as often as the table holds it |
| `UserStats.MinOf` | bikeshare.py:313 | the earliest birth year occurs in the column and is at most every value |
| `UserStats.MaxOf` | bikeshare.py:314 | the latest birth year occurs in the column and is at least every value |
| `UserStats.Stats` | bikeshare.py:304-317 | the user-type and gender breakdowns are the tallies of those columns (each value once with its count, most frequent first), adding up to the row count and to the rows with a gender; earliest/latest birth years bound every recorded one and occur in the table; the common one is a most frequent birth year; ValueError when no birth year is recorded |
| `RawData.DfData` | bikeshare.py:345-354 | the first answer in 0..len(df) is used and every earlier one was out of range; exactly that many leading rows are shown; no rows when no answer is in range |

## Left out

- Reading the city's CSV file, timestamp parsing and deriving month, weekday and hour (`bikeshare.py:91-101`): the loaded rows are a parameter, with the derived fields already set.
- The Washington file has no Gender or Birth Year columns, so the script raises KeyError there. The model has no notion of a missing column: all such cells are `None`.
- Console I/O: `input`, printing, `.title()`/`.lower()` case mapping, and the menu and restart loop of `main`. Answers are a finite stream of already-normalised lines.
- Histogram rendering (labels, ticks, colours, `plt.show`). The model keeps the six month bars of `bikeshare.py:136`, the gender series of the duration histogram (`bikeshare.py:263-267`, `SplitByGender`) and the age-group series (`bikeshare.py:279-287`); the binning of the weekday, hour and duration histograms is not modelled.
- The age-by-gender histogram of `user_stats` (`bikeshare.py:318-326`): the `males['age']`/`females['age']` series are not modelled. They would be the gender split of `SplitByGender` mapped through `Age`.
- Mean travel time, `Trip Minutes` and `timedelta` formatting (`bikeshare.py:254-262`): floating-point division and library formatting.
- The 12-hour AM/PM rendering of hours (`bikeshare.py:175-181`): hours are reported on the 24-hour clock.
- Wall-clock timing (`time.time()`); `datetime.date.today()` becomes the `year` parameter.
- The order `value_counts` gives to values of equal count.
- Non-integer answers to the row-count prompt: `int()` raises there, and answers are modelled as integers.
- Trip durations are integer seconds; a fractional duration column is not modelled.
- BottomNeverOutranksTop: stated only for at least five distinct values. With three (`FewValuesOverlap`) or four distinct values the two lists overlap, and a bottom entry can outrank a top entry (`BottomCanOutrankTop`).
- TimeStats: when several months tie for most (or least) common and some are January to June while others are later, whether IndexError is raised follows the model's tie order, which depends on the order of the rows; the library's own choice among tied values is not modelled. `MonthStepByCounts` states the cases the counts decide.

## Findings

| source | as written | input that shows it | evidently intended | confidence | as-written member | corrected member |
|---|---|---|---|---|---|---|
| bikeshare.py:285-287 | the fourth stacked series, labelled '> 50', is `age_40s` again | any rider aged 50 or over (born 60 years before the current year, say) is in no plotted series; a rider aged 45 is stacked twice | the fourth series is `age_50s` | high; not executed | `DurationStats.PlottedAgeSeries`, `DurationStats.PlottedSeriesDropFiftyUp`, `DurationStats.PlottedSeriesDoubleForties` | `DurationStats.CorrectedAgeSeries`, `DurationStats.CorrectedSeriesStackEachRowOnce` |

=== FILE: duration_stats.dfy ===
/** `trip_duration_stats`: the total travel time of the filtered table, the
    split of its rows by gender, and the split by rider age into four groups
    (under 30, thirties, forties, 50 and over) whose trip durations are
    plotted as stacked series.
 */
module DurationStats {
  import opened Errors
  import opened Seqs
  import opened Trips

  /** `df['Trip Duration'].sum()`, in seconds. */
  function TotalDuration(t: seq<Trip>): (r: int)
    ensures (forall i :: 0 <= i < |t| ==> t[i].duration >= 0) ==> r >= 0
    ensures (forall i :: 0 <= i < |t| ==> t[i].duration <= 0) ==> r <= 0
  {
    if t == [] then 0 else t[0].duration + TotalDuration(t[1..])
  }

  /** The total of two tables laid end to end is the sum of their totals. */
  lemma {:induction false} TotalDurationAppend(a: seq<Trip>, b: seq<Trip>)
    ensures TotalDuration(a + b) == TotalDuration(a) + TotalDuration(b)
    decreases |a|
  {
    if a == [] {
      assert a + b == b;
    } else {
      assert (a + b)[0] == a[0];
      assert (a + b)[1..] == a[1..] + b;
      TotalDurationAppend(a[1..], b);
    }
  }

  /** Any mask splits the total exactly between the rows it keeps and the
      rows it drops: no second of travel is lost or counted twice. */
  lemma {:induction false} TotalDurationSplit(t: seq<Trip>, keep: Trip -> bool)
    ensures TotalDuration(t) == TotalDuration(Select(t, keep)) + TotalDuration(Select(t, (r: Trip) => !keep(r)))
    decreases |t|
  {
    if t != [] {
      TotalDurationSplit(t[1..], keep);
      var kept := Select(t[1..], keep);
      var dropped := Select(t[1..], (r: Trip) => !keep(r));
      if keep(t[0]) {
        assert Select(t, keep) == [t[0]] + kept;
        assert Select(t, (r: Trip) => !keep(r)) == dropped;
        TotalDurationAppend([t[0]], kept);
      } else {
        assert Select(t, keep) == kept;
        assert Select(t, (r: Trip) => !keep(r)) == [t[0]] + dropped;
        TotalDurationAppend([t[0]], dropped);
      }
    }
  }

  /** With no negative durations, a filtered table never travels longer than
      the table it was filtered from. */
  lemma {:induction false} FilteredTotalBounded(t: seq<Trip>, keep: Trip -> bool)
    requires forall i :: 0 <= i < |t| ==> t[i].duration >= 0
    ensures 0 <= TotalDuration(Select(t, keep)) <= TotalDuration(t)
    decreases |t|
  {
    if t != [] {
      FilteredTotalBounded(t[1..], keep);
      if keep(t[0]) {
        assert Select(t, keep) == [t[0]] + Select(t[1..], keep);
        TotalDurationAppend([t[0]], Select(t[1..], keep));
      } else {
        assert Select(t, keep) == Select(t[1..], keep);
      }
    }
  }

  /** The rows of female and of male riders; rows of any other or of no
      recorded gender are in neither. */
  datatype GenderGroups = GenderGroups(males: seq<Trip>, females: seq<Trip>)

  function SplitByGender(t: seq<Trip>): (g: GenderGroups)
    ensures forall i :: 0 <= i < |g.males| ==> g.males[i].gender == Some("Male")
    ensures forall i :: 0 <= i < |g.females| ==> g.females[i].gender == Some("Female")
    ensures forall v :: Count(g.males, v) + Count(g.females, v) ==
                        (if v.gender in {Some("Male"), Some("Female")} then Count(t, v) else 0)
  {
    GenderGroups(Select(t, (r: Trip) => r.gender == Some("Male")),
                 Select(t, (r: Trip) => r.gender == Some("Female")))
  }

  /** A rider's age, `year - Birth Year`; empty when the birth year is. */
  function Age(year: int, r: Trip): (a: Option<int>)
    ensures a.Some? <==> r.birthYear.Some?
    ensures a.Some? ==> a.value + r.birthYear.value == year
  {
    match r.birthYear
    case None => None
    case Some(b) => Some(year - b)
  }

  /** `age < bound`. As with NaN in pandas, a row without an age fails
      every comparison. */
  predicate AgeBelow(year: int, r: Trip, bound: int) {
    Age(year, r).Some? && Age(year, r).value < bound
  }

  /** `age >= bound`; false for a row without an age. */
  predicate AgeAtLeast(year: int, r: Trip, bound: int) {
    Age(year, r).Some? && Age(year, r).value >= bound
  }

  /** Membership of age group `k`: `age < 30` (0), `30 <= age < 40` (1),
      `40 <= age < 50` (2) and `age >= 50` (3). */
  predicate InGroup(year: int, r: Trip, k: nat) {
    match k
    case 0 => AgeBelow(year, r, 30)
    case 1 => AgeAtLeast(year, r, 30) && AgeBelow(year, r, 40)
    case 2 => AgeAtLeast(year, r, 40) && AgeBelow(year, r, 50)
    case _ => AgeAtLeast(year, r, 50)
  }

  /** The rows of age group `k`, each as often as the table holds it. */
  function AgeGroup(t: seq<Trip>, year: int, k: nat): (g: seq<Trip>)
    ensures forall i :: 0 <= i < |g| ==> InGroup(year, g[i], k)
    ensures forall v :: Count(g, v) == if InGroup(year, v, k) then Count(t, v) else 0
  {
    Select(t, (r: Trip) => InGroup(year, r, k))
  }

  /** The four age groups of the filtered table. */
  datatype AgeGroups = AgeGroups(
    under30: seq<Trip>, thirties: seq<Trip>, forties: seq<Trip>, fiftyUp: seq<Trip>)

  /** The groups `age < 30`, `30 <= age < 40`, `40 <= age < 50` and
      `age >= 50`: they share no row, and together they hold every row with a
      known birth year exactly as often as the table does. */
  function SplitByAge(t: seq<Trip>, year: int): (g: AgeGroups)
    ensures forall i :: 0 <= i < |g.under30| ==> AgeBelow(year, g.under30[i], 30)
    ensures forall i :: 0 <= i < |g.thirties| ==> AgeAtLeast(year, g.thirties[i], 30) && AgeBelow(year, g.thirties[i], 40)
    ensures forall i :: 0 <= i < |g.forties| ==> AgeAtLeast(year, g.forties[i], 40) && AgeBelow(year, g.forties[i], 50)
    ensures forall i :: 0 <= i < |g.fiftyUp| ==> AgeAtLeast(year, g.fiftyUp[i], 50)
    ensures forall v :: Count(g.under30, v) + Count(g.thirties, v) + Count(g.forties, v) + Count(g.fiftyUp, v)
                        == (if v.birthYear.Some? then Count(t, v) else 0)
    ensures Disjoint(g.under30, g.thirties) && Disjoint(g.under30, g.forties) && Disjoint(g.under30, g.fiftyUp)
    ensures Disjoint(g.thirties, g.forties) && Disjoint(g.thirties, g.fiftyUp) && Disjoint(g.forties, g.fiftyUp)
  {
    AgeGroups(AgeGroup(t, year, 0), AgeGroup(t, year, 1), AgeGroup(t, year, 2), AgeGroup(t, year, 3))
  }

  /** The series the age histogram stacks, as the script passes them: the
      forties group twice and the 50-and-over group not at all. */
  function PlottedAgeSeries(g: AgeGroups): (r: seq<seq<Trip>>)
    ensures |r| == 4 && r[..3] == CorrectedAgeSeries(g)[..3]
    ensures r[3] == r[2]
  {
    [g.under30, g.thirties, g.forties, g.forties]
  }

  /** The series the histogram's labels promise: one per age group. */
  function CorrectedAgeSeries(g: AgeGroups): (r: seq<seq<Trip>>)
    ensures |r| == 4
    ensures forall v :: Stacked(r, v) == Count(g.under30, v) + Count(g.thirties, v) + Count(g.forties, v) + Count(g.fiftyUp, v)
  {
    var r := [g.under30, g.thirties, g.forties, g.fiftyUp];
    assert forall v :: Stacked(r, v) == Count(g.under30, v) + Count(g.thirties, v) + Count(g.forties, v) + Count(g.fiftyUp, v) by {
      forall v {
        StackedFour(g.under30, g.thirties, g.forties, g.fiftyUp, v);
      }
    }
    r
  }

  /** How many times `v` is stacked across `series`. */
  function Stacked(series: seq<seq<Trip>>, v: Trip): nat {
    if series == [] then 0 else Count(series[0], v) + Stacked(series[1..], v)
  }

  /** The corrected series stack every row with a known age exactly once per
      occurrence in the table, and no other row. */
  lemma CorrectedSeriesStackEachRowOnce(t: seq<Trip>, year: int, v: Trip)
    ensures Stacked(CorrectedAgeSeries(SplitByAge(t, year)), v)
              == (if v.birthYear.Some? then Count(t, v) else 0)
  {
    var g := SplitByAge(t, year);
    StackedFour(g.under30, g.thirties, g.forties, g.fiftyUp, v);
  }

  lemma StackedFour(a: seq<Trip>, b: seq<Trip>, c: seq<Trip>, d: seq<Trip>, v: Trip)
    ensures Stacked([a, b, c, d], v) == Count(a, v) + Count(b, v) + Count(c, v) + Count(d, v)
  {
    assert [d][1..] == [];
    assert Stacked([d], v) == Count(d, v);
    assert [c, d][1..] == [d];
    assert Stacked([c, d], v) == Count(c, v) + Count(d, v);
    assert [b, c, d][1..] == [c, d];
    assert Stacked([b, c, d], v) == Count(b, v) + Count(c, v) + Count(d, v);
    assert [a, b, c, d][1..] == [b, c, d];
  }

  /** The plotted series stack no rider aged 50 or over. */
  lemma PlottedSeriesDropFiftyUp(t: seq<Trip>, year: int, v: Trip)
    requires AgeAtLeast(year, v, 50)
    ensures Stacked(PlottedAgeSeries(SplitByAge(t, year)), v) == 0
  {
    var g := SplitByAge(t, year);
    StackedFour(g.under30, g.thirties, g.forties, g.forties, v);
    assert v !in g.under30 && v !in g.thirties && v !in g.forties;
  }

  /** The plotted series stack every rider in their forties twice. */
  lemma PlottedSeriesDoubleForties(t: seq<Trip>, year: int, v: Trip)
    requires AgeAtLeast(year, v, 40) && AgeBelow(year, v, 50)
    ensures Stacked(PlottedAgeSeries(SplitByAge(t, year)), v) == 2 * Count(t, v)
  {
    var g := SplitByAge(t, year);
    StackedFour(g.under30, g.thirties, g.forties, g.forties, v);
    assert v !in g.under30 && v !in g.thirties && v !in g.fiftyUp;
  }
}

=== FILE: errors.dfy ===
/** Optional values and the failures the script can raise.

    The script has no error handling of its own: a bad lookup or an empty
    column simply raises a Python exception that ends the program. The model
    returns those exceptions as values so that every error path is explicit.
 */
module Errors {

  /** A value that may be absent, as a missing (NaN) cell of a column. */
  datatype Option<+T> = None | Some(value: T)

  /** The Python exception a step of the script raises. */
  datatype Failure =
    | KeyError    // dictionary lookup of an unknown key
    | ValueError  // list.index of an absent value; idxmax/idxmin of an empty series
    | IndexError  // positional lookup past the end of a list or series

  /** Either the value a step computes or the exception it raises. */
  datatype Result<+T> = Ok(value: T) | Raise(failure: Failure) {
    predicate IsFailure() {
      Raise?
    }

    function PropagateFailure<U>(): Result<U>
      requires Raise?
    {
      Raise(failure)
    }

    function Extract(): T
      requires Ok?
    {
      value
    }
  }
}

=== FILE: filters.dfy ===
/** The fixed vocabularies of the script and the `get_filters` prompt.

    The console is modelled as a finite stream of answer lines that have
    already been case-normalised (title case for city, month and day, lower
    case for the yes/no answer). Each re-prompt loop reads lines until one is
    in its vocabulary; a stream that runs out before a selection is confirmed
    yields no selection.
 */
module Filters {
  import opened Errors
  import opened Seqs

  /** `CITY_DATA`: the cities and the file each one's trips are read from. */
  const CityData: map<string, string> :=
    map["Chicago" := "chicago.csv",
        "New York City" := "new_york_city.csv",
        "Washington" := "washington.csv"]

  /** `month_list`: "All" at position 0, then the months with data. */
  const MonthList: seq<string> :=
    ["All", "January", "February", "March", "April", "May", "June"]

  /** `day_list`: "All", then the weekday names, Sunday first. */
  const DayList: seq<string> :=
    ["All", "Sunday", "Monday", "Tuesday", "Wednesday", "Thursday", "Friday", "Saturday"]

  /** The answers the confirmation prompt accepts. */
  const Answers: seq<string> := ["y", "n"]

  predicate IsCity(s: string) { s in CityData }
  predicate IsMonth(s: string) { s in MonthList }
  predicate IsDay(s: string) { s in DayList }
  predicate IsAnswer(s: string) { s in Answers }

  /** The first position of `v` in `xs`, or ValueError: Python's `list.index`. */
  function IndexOf(xs: seq<string>, v: string): (r: Result<nat>)
    ensures r.Ok? <==> v in xs
    ensures r.Raise? ==> r.failure == ValueError
    ensures r.Ok? ==> r.value < |xs| && xs[r.value] == v
    ensures r.Ok? ==> forall j :: 0 <= j < r.value ==> xs[j] != v
  {
    if xs == [] then Raise(ValueError)
    else if xs[0] == v then Ok(0)
    else match IndexOf(xs[1..], v)
      case Ok(k) => Ok(k + 1)
      case Raise(f) => Raise(f)
  }

  /** `month_list.index(month)`: 0 for "All", 1 to 6 for January to June. */
  function MonthIndex(month: string): (r: Result<nat>)
    ensures r.Ok? <==> IsMonth(month)
    ensures r.Ok? ==> r.value < |MonthList| && MonthList[r.value] == month
    ensures r.Ok? ==> (r.value == 0 <==> month == "All")
    ensures r.Ok? && month != "All" ==> 1 <= r.value <= 6
  {
    IndexOf(MonthList, month)
  }

  /** An accepted answer other than "y" is "n". */
  lemma NotYesIsNo(s: string)
    requires IsAnswer(s) && s != "y"
    ensures s == "n"
  {
    assert s == Answers[0] || s == Answers[1];
  }

  /** The city, month and day a user settled on. */
  datatype Selection = Selection(city: string, month: string, day: string)

  /** Every part of the selection is in its vocabulary. */
  predicate Accepted(s: Selection) {
    IsCity(s.city) && IsMonth(s.month) && IsDay(s.day)
  }

  /** Where one pass of the prompts found its city, month, day and yes/no
      answer. */
  datatype Pass = Pass(cityAt: nat, monthAt: nat, dayAt: nat, answerAt: nat)

  /** What each of the four loops of a pass waits for: a city, a month, a
      day, then a yes/no answer. */
  function Wanted(stage: nat): string -> bool {
    if stage == 0 then IsCity
    else if stage == 1 then IsMonth
    else if stage == 2 then IsDay
    else IsAnswer
  }

  /** The loop for `stage`, starting on line `from`, stops on line `at`: the
      line is one it accepts and every line before it was rejected. */
  predicate Stops(lines: seq<string>, from: nat, at: nat, stage: nat) {
    && from <= at < |lines|
    && Wanted(stage)(lines[at])
    && forall j :: from <= j < at ==> !Wanted(stage)(lines[j])
  }

  /** `q` is what the four re-prompt loops of a pass begun at `p` stop at:
      each answer is the first valid line after the previous one, and every
      line skipped on the way was rejected. */
  predicate ReadsPass(lines: seq<string>, p: nat, q: Pass) {
    && Stops(lines, p, q.cityAt, 0)
    && Stops(lines, q.cityAt + 1, q.monthAt, 1)
    && Stops(lines, q.monthAt + 1, q.dayAt, 2)
    && Stops(lines, q.dayAt + 1, q.answerAt, 3)
  }

  /** From position `i` on, the stream still holds lines that the loops
      `stage` to 3 of a pass accept, in that order (other lines may come
      between them): either line `i` serves loop `stage` and the rest
      follows it, or the lines after `i` hold them all. */
  predicate StagesFrom(lines: seq<string>, i: nat, stage: nat)
    decreases |lines| - i
  {
    stage >= 4 ||
    (i < |lines| &&
     ((Wanted(stage)(lines[i]) && StagesFrom(lines, i + 1, stage + 1)) ||
      StagesFrom(lines, i + 1, stage)))
  }

  /** From position `p` the stream still holds a whole pass: a valid city,
      then a valid month, then a valid day, then a yes/no answer. */
  predicate HasFullPass(lines: seq<string>, p: nat) {
    StagesFrom(lines, p, 0)
  }

  /** What is left from a later position is also left from an earlier one. */
  lemma {:induction false} StagesEarlier(lines: seq<string>, i: nat, j: nat, stage: nat)
    requires i <= j && StagesFrom(lines, j, stage)
    ensures StagesFrom(lines, i, stage)
    decreases j - i
  {
    if i < j {
      StagesEarlier(lines, i + 1, j, stage);
    }
  }

  /** When the rest of a pass is there, its loop stops before the end of
      the stream and the later loops' lines still follow the line it stopped
      at: taking the first acceptable line never loses a pass that a later
      acceptable line would have completed. */
  lemma {:induction false} StageForward(lines: seq<string>, i: nat, stage: nat)
    requires i <= |lines| && stage < 4 && StagesFrom(lines, i, stage)
    ensures NextWhere(lines, i, Wanted(stage)) < |lines|
    ensures StagesFrom(lines, NextWhere(lines, i, Wanted(stage)) + 1, stage + 1)
    decreases |lines| - i
  {
    var k := NextWhere(lines, i, Wanted(stage));
    if !StagesFrom(lines, i + 1, stage) {
      assert Wanted(stage)(lines[i]) && StagesFrom(lines, i + 1, stage + 1);
      assert k == i;
    } else {
      StageForward(lines, i + 1, stage);
      var next := NextWhere(lines, i + 1, Wanted(stage));
      if Wanted(stage)(lines[i]) {
        assert k == i;
        StagesEarlier(lines, i + 1, next + 1, stage + 1);
      } else {
        assert k == next;
      }
    }
  }

  /** The lines a pass stopped at make a whole pass. */
  lemma PassFound(lines: seq<string>, p: nat, q: Pass)
    requires ReadsPass(lines, p, q)
    ensures HasFullPass(lines, p)
  {
    assert StagesFrom(lines, q.answerAt, 3);
    StagesEarlier(lines, q.dayAt + 1, q.answerAt, 3);
    assert StagesFrom(lines, q.dayAt, 2);
    StagesEarlier(lines, q.monthAt + 1, q.dayAt, 2);
    assert StagesFrom(lines, q.monthAt, 1);
    StagesEarlier(lines, q.cityAt + 1, q.monthAt, 1);
    assert StagesFrom(lines, q.cityAt, 0);
    StagesEarlier(lines, p, q.cityAt, 0);
  }

  /** One pass of the outer loop of `get_filters`, from position `p`: the
      city, month, day and yes/no loops in turn, or nothing when the stream
      runs out first. */
  function ReadPass(lines: seq<string>, p: nat): (r: Option<Pass>)
    requires p <= |lines|
    ensures r.Some? ==> ReadsPass(lines, p, r.value)
  {
    var c := NextWhere(lines, p, Wanted(0));
    if c == |lines| then None else
    var m := NextWhere(lines, c + 1, Wanted(1));
    if m == |lines| then None else
    var d := NextWhere(lines, m + 1, Wanted(2));
    if d == |lines| then None else
    var a := NextWhere(lines, d + 1, Wanted(3));
    if a == |lines| then None else
    Some(Pass(c, m, d, a))
  }

  /** Each of the loops `stage` to 3 of a pass, started on the line after
      the previous loop's stop (the first on line `i`), stops before the
      end of the stream. */
  predicate LoopsStop(lines: seq<string>, i: nat, stage: nat)
    requires i <= |lines|
    decreases 4 - stage
  {
    stage >= 4 ||
    (NextWhere(lines, i, Wanted(stage)) < |lines| &&
     LoopsStop(lines, NextWhere(lines, i, Wanted(stage)) + 1, stage + 1))
  }

  /** When the lines for the loops `stage` to 3 are there, those loops all
      stop before the end of the stream. */
  lemma {:induction false} StagesStop(lines: seq<string>, i: nat, stage: nat)
    requires i <= |lines| && StagesFrom(lines, i, stage)
    ensures LoopsStop(lines, i, stage)
    decreases 4 - stage
  {
    if stage < 4 {
      StageForward(lines, i, stage);
      StagesStop(lines, NextWhere(lines, i, Wanted(stage)) + 1, stage + 1);
    }
  }

  /** A pass comes back empty exactly when no whole pass is left. */
  lemma ReadPassComplete(lines: seq<string>, p: nat)
    requires p <= |lines|
    ensures ReadPass(lines, p).None? <==> !HasFullPass(lines, p)
  {
    var r := ReadPass(lines, p);
    if r.Some? {
      PassFound(lines, p, r.value);
    } else if HasFullPass(lines, p) {
      StagesStop(lines, p, 0);
    }
  }

  /** How the prompts end: a confirmed selection and the pass that gave it,
      or a stream that ran out. Either way `passAt` is where the last pass
      began. */
  datatype Prompted =
    | Confirmed(selection: Selection, passAt: nat, pass: Pass)
    | RanOut(passAt: nat)

  /** Reading from `from`, a pass begins at `p`: either `p` is `from`, or
      every pass before `p` was read in full and answered "n", the last one
      ending on the line before `p`. */
  ghost predicate DeclinedUntil(lines: seq<string>, from: nat, p: nat)
    requires from <= |lines|
    decreases |lines| - from
  {
    p == from ||
    exists q :: ReadsPass(lines, from, q) && lines[q.answerAt] == "n" && DeclinedUntil(lines, q.answerAt + 1, p)
  }

  /** A pass answered "n" extends the passes declined so far. */
  lemma DeclineStep(lines: seq<string>, from: nat, q: Pass, p: nat)
    requires from <= |lines| && ReadsPass(lines, from, q)
    requires lines[q.answerAt] == "n" && DeclinedUntil(lines, q.answerAt + 1, p)
    ensures DeclinedUntil(lines, from, p)
  {
  }

  /** `get_filters`, reading the stream from position `from`: one pass reads
      a city, a month, a day and a yes/no answer; "y" returns the selection
      those lines give and "n" starts a new pass after it. When the stream
      ends first there is no selection, and no whole pass was left after the
      last pass began. */
  function GetFilters(lines: seq<string>, from: nat): (r: Prompted)
    requires from <= |lines|
    ensures DeclinedUntil(lines, from, r.passAt)
    ensures r.RanOut? ==> !HasFullPass(lines, r.passAt)
    ensures r.Confirmed? ==> ReadsPass(lines, r.passAt, r.pass) && lines[r.pass.answerAt] == "y"
    ensures r.Confirmed? ==> r.selection == Selection(lines[r.pass.cityAt], lines[r.pass.monthAt], lines[r.pass.dayAt])
    ensures r.Confirmed? ==> Accepted(r.selection)
    decreases |lines| - from
  {
    ReadPassComplete(lines, from);
    match ReadPass(lines, from)
    case None => RanOut(from)
    case Some(q) =>
      if lines[q.answerAt] == "y" then
        Confirmed(Selection(lines[q.cityAt], lines[q.monthAt], lines[q.dayAt]), from, q)
      else
        NotYesIsNo(lines[q.answerAt]);
        var next := GetFilters(lines, q.answerAt + 1);
        DeclineStep(lines, from, q, next.passAt);
        next
  }

  /** Four acceptable lines in a row make the first pass. */
  lemma FirstFourLines(lines: seq<string>)
    requires |lines| >= 4 && IsCity(lines[0]) && IsMonth(lines[1])
    requires IsDay(lines[2]) && IsAnswer(lines[3])
    ensures ReadPass(lines, 0) == Some(Pass(0, 1, 2, 3))
  {
    assert NextWhere(lines, 0, Wanted(0)) == 0;
    assert NextWhere(lines, 1, Wanted(1)) == 1;
    assert NextWhere(lines, 2, Wanted(2)) == 2;
    assert NextWhere(lines, 3, Wanted(3)) == 3;
  }

  /** Four valid lines ending in "y" are confirmed at once. */
  lemma FirstPassConfirmed(city: string, month: string, day: string, rest: seq<string>)
    requires IsCity(city) && IsMonth(month) && IsDay(day)
    ensures GetFilters([city, month, day, "y"] + rest, 0)
              == Confirmed(Selection(city, month, day), 0, Pass(0, 1, 2, 3))
  {
    var lines := [city, month, day, "y"] + rest;
    assert lines[0] == city && lines[1] == month && lines[2] == day && lines[3] == "y";
    FirstFourLines(lines);
  }

  /** Answering "n" discards the pass: the prompt starts over after it. */
  lemma DeclinedPassRestarts(city: string, month: string, day: string, rest: seq<string>)
    requires IsCity(city) && IsMonth(month) && IsDay(day)
    ensures GetFilters([city, month, day, "n"] + rest, 0)
              == GetFilters([city, month, day, "n"] + rest, 4)
  {
    var lines := [city, month, day, "n"] + rest;
    assert lines[0] == city && lines[1] == month && lines[2] == day && lines[3] == "n";
    FirstFourLines(lines);
  }
}

=== FILE: frequency.dfy ===
/** Frequency counts over a column: pandas' `value_counts` (distinct values in
    descending order of count), `idxmax`/`idxmin` over it, and the top-3 and
    bottom-3 lookups `index[0..2]` and `index[-1], index[-2], index[-3]`.

    The order among values of equal count is the library's and is not
    modelled: every property below speaks of counts, not of positions among
    ties.
 */
module Frequency {
  import opened Errors
  import opened Seqs

  /** Which end of a frequency count a selection prefers. */
  datatype Order = MostFirst | LeastFirst {
    /** A value counted `a` times may be reported ahead of one counted `b` times. */
    predicate Ahead(a: nat, b: nat) {
      if MostFirst? then a >= b else a <= b
    }
  }

  /** The counts of `vs` in `xs` never increase along `vs`. */
  predicate Descending<T(==)>(vs: seq<T>, xs: seq<T>) {
    forall i, j :: 0 <= i < j < |vs| ==> Count(xs, vs[i]) >= Count(xs, vs[j])
  }

  /** The number of distinct values of `xs`. */
  function DistinctCount<T(==,!new)>(xs: seq<T>): nat {
    |set v | v in xs|
  }

  /** The first candidate whose count in `xs` is best for `order`. */
  function Best<T(==,!new)>(cands: seq<T>, xs: seq<T>, order: Order): (r: T)
    requires |cands| > 0
    ensures r in cands
    ensures forall c :: c in cands ==> order.Ahead(Count(xs, r), Count(xs, c))
    decreases |cands|
  {
    if |cands| == 1 then cands[0]
    else
      var b := Best(cands[1..], xs, order);
      assert forall c :: c in cands ==> c == cands[0] || c in cands[1..];
      if order.Ahead(Count(xs, cands[0]), Count(xs, b)) then cands[0] else b
  }

  /** The candidates reordered by non-increasing count in `xs`. */
  function SortByCount<T(==,!new)>(cands: seq<T>, xs: seq<T>): (r: seq<T>)
    requires NoDuplicates(cands)
    ensures |r| == |cands|
    ensures NoDuplicates(r)
    ensures forall v :: v in r <==> v in cands
    ensures Descending(r, xs)
    decreases |cands|
  {
    if cands == [] then []
    else
      var b := Best(cands, xs, MostFirst);
      var rest := SortByCount(Without(cands, b), xs);
      PrependMostCommon(b, rest, xs);
      [b] + rest
  }

  /** Putting in front of a descending list a value that is missing from it
      and counted at least as often as each of its entries keeps the list
      descending and free of duplicates. */
  lemma PrependMostCommon<T(!new)>(b: T, rest: seq<T>, xs: seq<T>)
    requires NoDuplicates(rest) && Descending(rest, xs) && b !in rest
    requires forall j :: 0 <= j < |rest| ==> Count(xs, b) >= Count(xs, rest[j])
    ensures NoDuplicates([b] + rest) && Descending([b] + rest, xs)
  {
    var r := [b] + rest;
    forall i, j | 0 <= i < j < |r|
      ensures r[i] != r[j] && Count(xs, r[i]) >= Count(xs, r[j])
    {
      assert r[j] == rest[j - 1];
      if i > 0 {
        assert r[i] == rest[i - 1];
      }
    }
  }

  /** `value_counts`: every distinct value of `xs` once, most frequent first. */
  function ValueCounts<T(==,!new)>(xs: seq<T>): (r: seq<T>)
    ensures NoDuplicates(r)
    ensures forall v :: v in r <==> v in xs
    ensures |r| == DistinctCount(xs)
    ensures Descending(r, xs)
  {
    var d := Distinct(xs);
    var r := SortByCount(d, xs);
    NoDuplicatesCardinality(r);
    assert (set v | v in r) == (set v | v in xs);
    r
  }

  /** `value_counts().idxmax()` (MostFirst) and `value_counts().idxmin()`
      (LeastFirst): a value of the column with the largest (smallest) count,
      or ValueError on an empty column. */
  function Extreme<T(==,!new)>(xs: seq<T>, order: Order): (r: Result<T>)
    ensures r.Ok? <==> |xs| > 0
    ensures r.Raise? ==> r.failure == ValueError
    ensures r.Ok? ==> r.value in xs
    ensures r.Ok? ==> forall v :: v in xs ==> order.Ahead(Count(xs, r.value), Count(xs, v))
  {
    if |xs| == 0 then Raise(ValueError)
    else
      assert xs[0] in ValueCounts(xs);
      Ok(Best(ValueCounts(xs), xs, order))
  }

  /** `index[0], index[1], index[2]` of a list. */
  function FirstThree<T>(vs: seq<T>): seq<T>
    requires |vs| >= 3
  {
    [vs[0], vs[1], vs[2]]
  }

  /** `index[-1], index[-2], index[-3]` of a list. */
  function LastThree<T>(vs: seq<T>): seq<T>
    requires |vs| >= 3
  {
    [vs[|vs| - 1], vs[|vs| - 2], vs[|vs| - 3]]
  }

  /** `v` occurs in `xs` and no value occurs more often. */
  predicate IsMostCommon<T(==,!new)>(xs: seq<T>, v: T) {
    v in xs && forall u :: u in xs ==> Count(xs, u) <= Count(xs, v)
  }

  /** `v` occurs in `xs` and no value occurs less often. */
  predicate IsLeastCommon<T(==,!new)>(xs: seq<T>, v: T) {
    v in xs && forall u :: u in xs ==> Count(xs, v) <= Count(xs, u)
  }

  /** `value_counts().idxmax()` and `value_counts().idxmin()` of one column. */
  function MostAndLeast<T(==,!new)>(xs: seq<T>): (r: Result<(T, T)>)
    ensures r.Ok? <==> |xs| > 0
    ensures r.Raise? ==> r.failure == ValueError
    ensures r.Ok? ==> IsMostCommon(xs, r.value.0) && IsLeastCommon(xs, r.value.1)
  {
    if |xs| == 0 then Raise(ValueError)
    else Ok((Extreme(xs, MostFirst).value, Extreme(xs, LeastFirst).value))
  }

  /** `top` lists three distinct values of `xs`, most frequent first, and no
      other value of `xs` is more frequent than any of them. */
  predicate IsTopThree<T(==,!new)>(xs: seq<T>, top: seq<T>) {
    && |top| == 3 && NoDuplicates(top)
    && (forall i :: 0 <= i < 3 ==> top[i] in xs)
    && Count(xs, top[0]) >= Count(xs, top[1]) >= Count(xs, top[2])
    && forall v, i :: v in xs && v !in top && 0 <= i < 3 ==> Count(xs, v) <= Count(xs, top[i])
  }

  /** `bottom` lists three distinct values of `xs`, least frequent first, and
      no other value of `xs` is less frequent than any of them. */
  predicate IsBottomThree<T(==,!new)>(xs: seq<T>, bottom: seq<T>) {
    && |bottom| == 3 && NoDuplicates(bottom)
    && (forall i :: 0 <= i < 3 ==> bottom[i] in xs)
    && Count(xs, bottom[0]) <= Count(xs, bottom[1]) <= Count(xs, bottom[2])
    && forall v, i :: v in xs && v !in bottom && 0 <= i < 3 ==> Count(xs, v) >= Count(xs, bottom[i])
  }

  /** The first three entries of a duplicate-free descending list of the
      values of `xs` are a top three of `xs`. */
  lemma FirstThreeIsTop<T(!new)>(vs: seq<T>, xs: seq<T>)
    requires NoDuplicates(vs) && Descending(vs, xs) && |vs| >= 3
    requires forall v :: v in vs <==> v in xs
    ensures IsTopThree(xs, FirstThree(vs))
  {
    var top := FirstThree(vs);
    assert top == [vs[0], vs[1], vs[2]];
    forall v, i | v in xs && v !in top && 0 <= i < 3
      ensures Count(xs, v) <= Count(xs, top[i])
    {
      var k :| 0 <= k < |vs| && vs[k] == v;
      assert top[i] == vs[i] && i < k;
    }
  }

  /** The last three entries of a duplicate-free descending list of the
      values of `xs`, read backwards, are a bottom three of `xs`. */
  lemma LastThreeIsBottom<T(!new)>(vs: seq<T>, xs: seq<T>)
    requires NoDuplicates(vs) && Descending(vs, xs) && |vs| >= 3
    requires forall v :: v in vs <==> v in xs
    ensures IsBottomThree(xs, LastThree(vs))
  {
    var n := |vs|;
    var bottom := LastThree(vs);
    assert bottom == [vs[n - 1], vs[n - 2], vs[n - 3]];
    forall v, i | v in xs && v !in bottom && 0 <= i < 3
      ensures Count(xs, v) >= Count(xs, bottom[i])
    {
      var k :| 0 <= k < n && vs[k] == v;
      assert bottom[i] == vs[n - 1 - i] && k < n - 1 - i;
    }
  }

  /** `value_counts().index[0], [1], [2]`: the three most frequent values, or
      IndexError when the column has fewer than three distinct values. */
  function TopThree<T(==,!new)>(xs: seq<T>): (r: Result<seq<T>>)
    ensures r.Ok? <==> DistinctCount(xs) >= 3
    ensures r.Raise? ==> r.failure == IndexError
    ensures r.Ok? ==> IsTopThree(xs, r.value)
  {
    var vc := ValueCounts(xs);
    if |vc| < 3 then Raise(IndexError)
    else
      FirstThreeIsTop(vc, xs);
      Ok(FirstThree(vc))
  }

  /** `value_counts().index[-1], [-2], [-3]`: the three least frequent values,
      least frequent first, or IndexError when the column has fewer than three
      distinct values. */
  function BottomThree<T(==,!new)>(xs: seq<T>): (r: Result<seq<T>>)
    ensures r.Ok? <==> DistinctCount(xs) >= 3
    ensures r.Raise? ==> r.failure == IndexError
    ensures r.Ok? ==> IsBottomThree(xs, r.value)
  {
    var vc := ValueCounts(xs);
    if |vc| < 3 then Raise(IndexError)
    else
      LastThreeIsBottom(vc, xs);
      Ok(LastThree(vc))
  }

  /** In a descending list of at least five values, nothing among the last
      three is counted more often than anything among the first three. */
  lemma LastThreeNeverOutrankFirst<T(!new)>(vs: seq<T>, xs: seq<T>)
    requires Descending(vs, xs) && |vs| >= 5
    ensures forall i, j :: 0 <= i < 3 && 0 <= j < 3 ==>
              Count(xs, LastThree(vs)[i]) <= Count(xs, FirstThree(vs)[j])
  {
    var n := |vs|;
    assert Count(xs, vs[2]) >= Count(xs, vs[n - 3]);
  }

  /** In a duplicate-free list of at least six values, the first three and
      the last three share no value. */
  lemma FirstAndLastThreeDisjoint<T(!new)>(vs: seq<T>)
    requires NoDuplicates(vs) && |vs| >= 6
    ensures Disjoint(FirstThree(vs), LastThree(vs))
  {
    var n := |vs|;
    assert FirstThree(vs) == [vs[0], vs[1], vs[2]];
    assert LastThree(vs) == [vs[n - 1], vs[n - 2], vs[n - 3]];
  }

  /** With at least five distinct values no bottom-three value is more
      frequent than any top-three value. */
  lemma BottomNeverOutranksTop<T(!new)>(xs: seq<T>)
    requires DistinctCount(xs) >= 5
    ensures TopThree(xs).Ok? && BottomThree(xs).Ok?
    ensures forall i, j :: 0 <= i < 3 && 0 <= j < 3 ==>
              Count(xs, BottomThree(xs).value[i]) <= Count(xs, TopThree(xs).value[j])
  {
    var vc := ValueCounts(xs);
    assert TopThree(xs).value == FirstThree(vc);
    assert BottomThree(xs).value == LastThree(vc);
    LastThreeNeverOutrankFirst(vc, xs);
  }

  /** With at least six distinct values the top three and the bottom three
      share no value. */
  lemma TopAndBottomDisjoint<T(!new)>(xs: seq<T>)
    requires DistinctCount(xs) >= 6
    ensures TopThree(xs).Ok? && BottomThree(xs).Ok?
    ensures Disjoint(TopThree(xs).value, BottomThree(xs).value)
  {
    var vc := ValueCounts(xs);
    assert TopThree(xs).value == FirstThree(vc);
    assert BottomThree(xs).value == LastThree(vc);
    FirstAndLastThreeDisjoint(vc);
  }

  /** With exactly three distinct values the bottom three are the top three
      in reverse, so the least-common list holds the most common value. */
  lemma FewValuesOverlap<T(!new)>(xs: seq<T>)
    requires DistinctCount(xs) == 3
    ensures TopThree(xs).Ok? && BottomThree(xs).Ok?
    ensures BottomThree(xs).value[2] == TopThree(xs).value[0]
    ensures Count(xs, BottomThree(xs).value[2]) >= Count(xs, TopThree(xs).value[2])
  {
  }

  /** With three distinct values, one of them strictly the most frequent,
      the last bottom entry is strictly more frequent than the last top
      entry. */
  lemma OneLeaderOutranks<T(!new)>(xs: seq<T>, a: T)
    requires DistinctCount(xs) == 3 && a in xs
    requires forall v :: v in xs && v != a ==> Count(xs, v) < Count(xs, a)
    ensures TopThree(xs).Ok? && BottomThree(xs).Ok?
    ensures Count(xs, BottomThree(xs).value[2]) > Count(xs, TopThree(xs).value[2])
  {
    FewValuesOverlap(xs);
    assert TopThree(xs).value[0] == a;
  }

  /** So a bottom entry can outrank a top entry: in `[1, 1, 2, 3]` the last
      least-common value is 1, seen twice, while the third most common value
      is seen once. */
  lemma BottomCanOutrankTop()
    ensures var xs := [1, 1, 2, 3];
      TopThree(xs).Ok? && BottomThree(xs).Ok? &&
      Count(xs, BottomThree(xs).value[2]) > Count(xs, TopThree(xs).value[2])
  {
    var xs := [1, 1, 2, 3];
    assert (set v | v in xs) == {1, 2, 3};
    assert multiset(xs) == multiset{1, 1, 2, 3};
    OneLeaderOutranks(xs, 1);
  }

  /** Each value of `vs` paired with its count in `xs`. */
  function TallyOf<T(==)>(vs: seq<T>, xs: seq<T>): (r: seq<(T, nat)>)
    ensures |r| == |vs|
    ensures forall i :: 0 <= i < |vs| ==> r[i] == (vs[i], Count(xs, vs[i]))
  {
    if vs == [] then [] else [(vs[0], Count(xs, vs[0]))] + TallyOf(vs[1..], xs)
  }

  /** The Series `value_counts()` prints: each distinct value with its count,
      most frequent first. */
  function Tally<T(==,!new)>(xs: seq<T>): (r: seq<(T, nat)>)
    ensures |r| == DistinctCount(xs)
    ensures forall i :: 0 <= i < |r| ==> r[i].0 in xs && r[i].1 == Count(xs, r[i].0) && r[i].1 > 0
    ensures forall v :: v in xs ==> exists i :: 0 <= i < |r| && r[i].0 == v
    ensures forall i, j :: 0 <= i < j < |r| ==> r[i].0 != r[j].0 && r[i].1 >= r[j].1
  {
    var vc := ValueCounts(xs);
    TallyOfValueCounts(vc, xs);
    TallyOf(vc, xs)
  }

  /** The tally of a duplicate-free descending list of exactly the values of
      `xs` lists each of those values once with its positive count. */
  lemma TallyOfValueCounts<T(!new)>(vs: seq<T>, xs: seq<T>)
    requires NoDuplicates(vs) && Descending(vs, xs)
    requires forall v :: v in vs <==> v in xs
    ensures var r := TallyOf(vs, xs);
      && (forall i :: 0 <= i < |r| ==> r[i].0 in xs && r[i].1 == Count(xs, r[i].0) && r[i].1 > 0)
      && (forall v :: v in xs ==> exists i :: 0 <= i < |r| && r[i].0 == v)
      && (forall i, j :: 0 <= i < j < |r| ==> r[i].0 != r[j].0 && r[i].1 >= r[j].1)
  {
    var r := TallyOf(vs, xs);
    forall v | v in xs
      ensures exists i :: 0 <= i < |r| && r[i].0 == v
    {
      var i :| 0 <= i < |vs| && vs[i] == v;
      assert r[i].0 == v;
    }
    forall i | 0 <= i < |r|
      ensures r[i].0 in xs && r[i].1 == Count(xs, r[i].0) && r[i].1 > 0
    {
      assert r[i] == (vs[i], Count(xs, vs[i]));
      assert vs[i] in vs;
    }
    forall i, j | 0 <= i < j < |r|
      ensures r[i].0 != r[j].0 && r[i].1 >= r[j].1
    {
      assert r[i] == (vs[i], Count(xs, vs[i])) && r[j] == (vs[j], Count(xs, vs[j]));
    }
  }

  /** The sum of the counts of a tally. */
  function Total<T>(tally: seq<(T, nat)>): nat {
    if tally == [] then 0 else tally[0].1 + Total(tally[1..])
  }

  lemma {:induction false} TallyOfEmpty<T(!new)>(vs: seq<T>)
    ensures Total(TallyOf(vs, [])) == 0
    decreases |vs|
  {
    if vs != [] {
      TallyOfEmpty(vs[1..]);
    }
  }

  /** One more row adds one to the tally of a duplicate-free list exactly when
      the list holds the row's value. */
  lemma {:induction false} TallyOfCons<T(!new)>(vs: seq<T>, x: T, rest: seq<T>)
    requires NoDuplicates(vs)
    ensures Total(TallyOf(vs, [x] + rest)) == Total(TallyOf(vs, rest)) + (if x in vs then 1 else 0)
    decreases |vs|
  {
    if vs != [] {
      TallyOfCons(vs[1..], x, rest);
      assert multiset([x] + rest) == multiset{x} + multiset(rest);
      assert vs[0] !in vs[1..];
      assert x in vs <==> x == vs[0] || x in vs[1..];
    }
  }

  /** The counts of a duplicate-free list covering every row add up to the
      number of rows. */
  lemma {:induction false} TallyOfCovering<T(!new)>(vs: seq<T>, xs: seq<T>)
    requires NoDuplicates(vs)
    requires forall x :: x in xs ==> x in vs
    ensures Total(TallyOf(vs, xs)) == |xs|
    decreases |xs|
  {
    if xs == [] {
      TallyOfEmpty(vs);
    } else {
      assert xs == [xs[0]] + xs[1..];
      TallyOfCovering(vs, xs[1..]);
      TallyOfCons(vs, xs[0], xs[1..]);
    }
  }

  /** The counts printed by `value_counts` add up to the number of rows. */
  lemma TallyTotal<T(!new)>(xs: seq<T>)
    ensures Total(Tally(xs)) == |xs|
  {
    TallyOfCovering(ValueCounts(xs), xs);
  }
}

=== FILE: loader.dfy ===
/** `load_data`: the city's table, unfiltered and filtered by the selected
    month and weekday.

    Reading the city's file and deriving the calendar fields are not modelled:
    the rows the file holds are a parameter.
 */
module Loader {
  import opened Errors
  import opened Seqs
  import opened Filters
  import opened Trips

  /** The two tables the loader returns: `df_all` and `df`. */
  datatype Tables = Tables(all: seq<Trip>, filtered: seq<Trip>)

  /** The month filter: rows of month number `monthIdx`, unless "All". */
  function ByMonth(rows: seq<Trip>, month: string, monthIdx: nat): (r: seq<Trip>)
    ensures month == "All" ==> r == rows
    ensures forall i :: 0 <= i < |r| ==> month == "All" || r[i].month == monthIdx
    ensures forall v :: Count(r, v) == if month == "All" || v.month == monthIdx then Count(rows, v) else 0
  {
    if month != "All" then Select(rows, (r: Trip) => r.month == monthIdx) else rows
  }

  /** The day filter: rows whose weekday name is `day`, unless "All". */
  function ByDay(rows: seq<Trip>, day: string): (r: seq<Trip>)
    ensures day == "All" ==> r == rows
    ensures forall i :: 0 <= i < |r| ==> day == "All" || r[i].dayName == day
    ensures forall v :: Count(r, v) == if day == "All" || v.dayName == day then Count(rows, v) else 0
  {
    if day != "All" then Select(rows, (r: Trip) => r.dayName == day) else rows
  }

  /** A row meets the selection: its month is the selected one (or "All") and
      its weekday is the selected one (or "All"). */
  predicate Matches(month: string, monthIdx: nat, day: string, r: Trip) {
    (month == "All" || r.month == monthIdx) && (day == "All" || r.dayName == day)
  }

  /** The month filter followed by the day filter is the single mask `Matches`. */
  lemma FiltersAreOneMask(rows: seq<Trip>, month: string, monthIdx: nat, day: string)
    ensures ByDay(ByMonth(rows, month, monthIdx), day)
              == Select(rows, (r: Trip) => Matches(month, monthIdx, day, r))
  {
    var matches := (r: Trip) => Matches(month, monthIdx, day, r);
    var inMonth := (r: Trip) => r.month == monthIdx;
    var onDay := (r: Trip) => r.dayName == day;
    if month != "All" && day != "All" {
      SelectSelect(rows, inMonth, onDay, matches);
    } else if month != "All" {
      SelectSameMask(rows, inMonth, matches);
    } else if day != "All" {
      SelectSameMask(rows, onDay, matches);
    } else {
      SelectEverything(rows, matches);
    }
  }

  /** The filtered table keeps, in order, exactly the rows that meet the
      selection, each as often as the file holds it. */
  lemma FilteredRows(rows: seq<Trip>, month: string, monthIdx: nat, day: string)
    ensures var f := ByDay(ByMonth(rows, month, monthIdx), day);
      && IsSubsequence(f, rows)
      && (forall i :: 0 <= i < |f| ==> Matches(month, monthIdx, day, f[i]))
      && (forall v :: Count(f, v) == if Matches(month, monthIdx, day, v) then Count(rows, v) else 0)
  {
    var matches := (r: Trip) => Matches(month, monthIdx, day, r);
    FiltersAreOneMask(rows, month, monthIdx, day);
    SelectIsSubsequence(rows, matches);
  }

  /** `load_data(city, month, day)` over the rows of the city's file: KeyError
      for an unknown city, ValueError for a month outside `month_list`,
      otherwise the rows as read and the rows that meet the selection. */
  function LoadData(city: string, month: string, day: string, rows: seq<Trip>): (r: Result<Tables>)
    ensures !IsCity(city) ==> r == Raise(KeyError)
    ensures IsCity(city) && !IsMonth(month) ==> r == Raise(ValueError)
    ensures r.Ok? <==> IsCity(city) && IsMonth(month)
    ensures r.Ok? ==> r.value.all == rows
    ensures r.Ok? ==> IsSubsequence(r.value.filtered, rows)
    ensures r.Ok? ==> forall i :: 0 <= i < |r.value.filtered| ==>
              Matches(month, MonthIndex(month).value, day, r.value.filtered[i])
    ensures r.Ok? ==> forall v :: Count(r.value.filtered, v) ==
                        (if Matches(month, MonthIndex(month).value, day, v) then Count(rows, v) else 0)
    ensures r.Ok? && month != "All" ==> forall i :: 0 <= i < |r.value.filtered| ==>
              1 <= r.value.filtered[i].month <= 6 && MonthList[r.value.filtered[i].month] == month
    ensures r.Ok? && day != "All" ==> forall i :: 0 <= i < |r.value.filtered| ==> r.value.filtered[i].dayName == day
    ensures r.Ok? && month == "All" && day == "All" ==> r.value.filtered == rows
  {
    if !IsCity(city) then Raise(KeyError)
    else if !IsMonth(month) then Raise(ValueError)
    else
      var monthIdx := MonthIndex(month).value;
      var filtered := ByDay(ByMonth(rows, month, monthIdx), day);
      FilteredRows(rows, month, monthIdx, day);
      Ok(Tables(rows, filtered))
  }
}

=== FILE: raw_data.dfy ===
/** `df_data`: asks for a row count until one lies between 0 and the number of
    rows of the filtered table, then shows that many leading rows.

    The answers are modelled as a finite stream of integers; an answer that is
    not an integer makes the script raise and is not modelled.
 */
module RawData {
  import opened Errors
  import opened Seqs
  import opened Trips

  /** The check the script applies to an answer. */
  predicate RowCountInRange(n: int, rows: nat) {
    0 <= n <= rows
  }

  /** The rows shown and the position of the answer that chose them. */
  datatype Shown = Shown(rows: seq<Trip>, answerAt: nat)

  /** `df_data(df, ...)`: the first answer in range picks how many leading
      rows `df.head(n)` shows; a stream with no answer in range shows none. */
  function DfData(answers: seq<int>, df: seq<Trip>): (r: Option<Shown>)
    ensures r.None? <==> forall i :: 0 <= i < |answers| ==> !RowCountInRange(answers[i], |df|)
    ensures r.Some? ==> r.value.answerAt < |answers| && |r.value.rows| == answers[r.value.answerAt]
    ensures r.Some? ==> forall j :: 0 <= j < r.value.answerAt ==> !RowCountInRange(answers[j], |df|)
    ensures r.Some? ==> |r.value.rows| <= |df| && forall i :: 0 <= i < |r.value.rows| ==> r.value.rows[i] == df[i]
  {
    var k := NextWhere(answers, 0, (n: int) => RowCountInRange(n, |df|));
    if k == |answers| then None
    else Some(Shown(df[..answers[k]], k))
  }
}

=== FILE: seqs.dfy ===
/** Sequence vocabulary shared by the model: occurrence counts, boolean-mask
    selection (the `df[mask]` of the script), order-preserving subsequences
    and the distinct values of a column.
 */
module Seqs {

  /** The number of times `v` occurs in `xs`. */
  function Count<T(==)>(xs: seq<T>, v: T): nat {
    multiset(xs)[v]
  }

  /** No value occurs twice. */
  predicate NoDuplicates<T(==)>(xs: seq<T>) {
    forall i, j :: 0 <= i < j < |xs| ==> xs[i] != xs[j]
  }

  /** No element of `a` is an element of `b`. */
  predicate Disjoint<T(==)>(a: seq<T>, b: seq<T>) {
    forall i, j :: 0 <= i < |a| && 0 <= j < |b| ==> a[i] != b[j]
  }

  /** Applies `f` to every element, keeping the order. */
  function MapSeq<A, B>(xs: seq<A>, f: A -> B): (r: seq<B>)
    ensures |r| == |xs|
    ensures forall i :: 0 <= i < |xs| ==> r[i] == f(xs[i])
  {
    if xs == [] then [] else [f(xs[0])] + MapSeq(xs[1..], f)
  }

  /** The rows of `xs` on which `keep` holds, in their original order:
      a boolean mask applied to a table. */
  function Select<T(==,!new)>(xs: seq<T>, keep: T -> bool): (r: seq<T>)
    ensures |r| <= |xs|
    ensures forall i :: 0 <= i < |r| ==> keep(r[i])
    ensures forall v :: Count(r, v) == if keep(v) then Count(xs, v) else 0
  {
    if xs == [] then []
    else
      assert xs == [xs[0]] + xs[1..];
      (if keep(xs[0]) then [xs[0]] else []) + Select(xs[1..], keep)
  }

  /** `a` can be obtained from `b` by deleting elements, without reordering.
      Matching each element of `a` against the earliest possible element of
      `b` decides this exactly. */
  predicate IsSubsequence<T(==)>(a: seq<T>, b: seq<T>)
    decreases |b|
  {
    if a == [] then true
    else if b == [] then false
    else if a[0] == b[0] then IsSubsequence(a[1..], b[1..])
    else IsSubsequence(a, b[1..])
  }

  /** A mask never reorders or invents rows. */
  lemma {:induction false} SelectIsSubsequence<T(!new)>(xs: seq<T>, keep: T -> bool)
    ensures IsSubsequence(Select(xs, keep), xs)
    decreases |xs|
  {
    if xs != [] {
      SelectIsSubsequence(xs[1..], keep);
      var rest := Select(xs[1..], keep);
      if keep(xs[0]) {
        assert Select(xs, keep) == [xs[0]] + rest;
        assert ([xs[0]] + rest)[1..] == rest;
      } else {
        assert Select(xs, keep) == rest;
        if rest != [] {
          assert keep(rest[0]);
        }
      }
    }
  }

  /** Applying two masks one after the other keeps exactly the rows on which
      both hold: the filters combine with AND semantics. */
  lemma {:induction false} SelectSelect<T(!new)>(xs: seq<T>, p: T -> bool, q: T -> bool, both: T -> bool)
    requires forall x :: both(x) == (p(x) && q(x))
    ensures Select(Select(xs, p), q) == Select(xs, both)
    decreases |xs|
  {
    if xs != [] {
      var x, rest := xs[0], xs[1..];
      SelectSelect(rest, p, q, both);
      var s1 := Select(rest, p);
      if p(x) {
        assert Select(xs, p) == [x] + s1;
        assert ([x] + s1)[0] == x && ([x] + s1)[1..] == s1;
        assert Select([x] + s1, q) == (if q(x) then [x] else []) + Select(s1, q);
      } else {
        assert Select(xs, p) == s1;
      }
      assert Select(xs, both) == (if both(x) then [x] else []) + Select(rest, both);
    }
  }

  /** Masks that agree on every value select the same rows. */
  lemma {:induction false} SelectSameMask<T(!new)>(xs: seq<T>, p: T -> bool, q: T -> bool)
    requires forall x :: p(x) == q(x)
    ensures Select(xs, p) == Select(xs, q)
    decreases |xs|
  {
    if xs != [] {
      SelectSameMask(xs[1..], p, q);
    }
  }

  /** A mask that holds on every row keeps the table as it is. */
  lemma {:induction false} SelectEverything<T(!new)>(xs: seq<T>, keep: T -> bool)
    requires forall i :: 0 <= i < |xs| ==> keep(xs[i])
    ensures Select(xs, keep) == xs
    decreases |xs|
  {
    if xs != [] {
      var rest := xs[1..];
      forall i | 0 <= i < |rest|
        ensures keep(rest[i])
      {
        assert rest[i] == xs[i + 1];
      }
      SelectEverything(rest, keep);
      assert keep(xs[0]);
      assert xs == [xs[0]] + rest;
    }
  }

  /** The first position at or after `from` whose element satisfies `ok`. */
  function NextWhere<T>(xs: seq<T>, from: nat, ok: T -> bool): (r: nat)
    requires from <= |xs|
    ensures from <= r <= |xs|
    ensures r < |xs| ==> ok(xs[r])
    ensures forall j :: from <= j < r ==> !ok(xs[j])
    decreases |xs| - from
  {
    if from == |xs| then from
    else if ok(xs[from]) then from
    else NextWhere(xs, from + 1, ok)
  }

  /** The distinct values of `xs`, each once, in order of first occurrence. */
  function Distinct<T(==,!new)>(xs: seq<T>): (r: seq<T>)
    ensures NoDuplicates(r)
    ensures forall v :: v in r <==> v in xs
    decreases |xs|
  {
    if xs == [] then []
    else
      var init := xs[..|xs| - 1];
      var last := xs[|xs| - 1];
      assert xs == init + [last];
      var d := Distinct(init);
      if last in d then d else d + [last]
  }

  /** `xs` without the value `v`. */
  function Without<T(==,!new)>(xs: seq<T>, v: T): (r: seq<T>)
    requires NoDuplicates(xs)
    ensures NoDuplicates(r)
    ensures forall x :: x in r <==> x in xs && x != v
    ensures |r| == if v in xs then |xs| - 1 else |xs|
  {
    if xs == [] then []
    else if xs[0] == v then
      assert forall x :: x in xs[1..] ==> x != v;
      xs[1..]
    else
      var r := Without(xs[1..], v);
      assert xs[0] !in xs[1..];
      assert xs[0] !in r;
      [xs[0]] + r
  }

  /** A sequence without duplicates has as many elements as its set. */
  lemma {:induction false} NoDuplicatesCardinality<T(!new)>(xs: seq<T>)
    requires NoDuplicates(xs)
    ensures |set x | x in xs| == |xs|
    decreases |xs|
  {
    if xs != [] {
      NoDuplicatesCardinality(xs[1..]);
      var s := set x | x in xs[1..];
      assert xs[0] !in s;
      assert (set x | x in xs) == {xs[0]} + s;
    }
  }
}

=== FILE: station_stats.dfy ===
/** `station_stats`: the three most and three least used start stations, end
    stations and routes of the filtered table. A route is keyed by the start
    station, the separator " --> " and the end station.
 */
module StationStats {
  import opened Errors
  import opened Seqs
  import opened Trips
  import opened Frequency

  const Separator: string := " --> "

  /** The `Full path` of a trip. */
  function RouteKey(start: string, end: string): (r: string)
    ensures |r| == |start| + |Separator| + |end|
    ensures r[..|start|] == start && r[|start| + |Separator|..] == end
    ensures r[|start|..|start| + |Separator|] == Separator
  {
    start + Separator + end
  }

  /** The `Full path` column. */
  function Routes(t: seq<Trip>): seq<string> {
    MapSeq(t, (r: Trip) => RouteKey(r.startStation, r.endStation))
  }

  /** Recovers the two stations of a route key by splitting at its first '>',
      which is the separator's own when the start station has none. */
  function SplitRoute(key: string): (r: Option<(string, string)>)
    ensures r.Some? ==> RouteKey(r.value.0, r.value.1) == key && '>' !in r.value.0
  {
    var i := NextWhere(key, 0, (ch: char) => ch == '>');
    if 3 <= i && i + 2 <= |key| && key[i - 3..i + 2] == Separator then
      var start, end := key[..i - 3], key[i + 2..];
      assert key == start + key[i - 3..i + 2] + end;
      assert forall j :: 0 <= j < |start| ==> start[j] == key[j];
      Some((start, end))
    else None
  }

  /** A route key splits back into its two stations whenever the start
      station contains no '>'. */
  lemma SplitRouteInverse(start: string, end: string)
    requires '>' !in start
    ensures SplitRoute(RouteKey(start, end)) == Some((start, end))
  {
    var key := RouteKey(start, end);
    var n := |start|;
    assert forall j :: 0 <= j < n ==> key[j] == start[j];
    assert key[n..n + 5] == Separator;
    assert key[n + 3] == '>';
    var i := NextWhere(key, 0, (ch: char) => ch == '>');
    assert i == n + 3;
    assert key[..n] == start;
    assert key[n + 5..] == end;
  }

  /** Two trips share a route key only when they share both stations, as
      long as start stations contain no '>'. */
  lemma RouteKeyInjective(s1: string, e1: string, s2: string, e2: string)
    requires '>' !in s1 && '>' !in s2
    requires RouteKey(s1, e1) == RouteKey(s2, e2)
    ensures s1 == s2 && e1 == e2
  {
    SplitRouteInverse(s1, e1);
    SplitRouteInverse(s2, e2);
  }

  /** A route is used no more often than its start station and its end
      station, when no start station contains '>'. */
  lemma {:induction false} RouteCountBounded(t: seq<Trip>, start: string, end: string)
    requires '>' !in start
    requires forall i :: 0 <= i < |t| ==> '>' !in t[i].startStation
    ensures Count(Routes(t), RouteKey(start, end)) <= Count(Starts(t), start)
    ensures Count(Routes(t), RouteKey(start, end)) <= Count(Ends(t), end)
    decreases |t|
  {
    if t != [] {
      var r, rest := t[0], t[1..];
      RouteCountBounded(rest, start, end);
      assert Routes(t) == [RouteKey(r.startStation, r.endStation)] + Routes(rest);
      assert Starts(t) == [r.startStation] + Starts(rest);
      assert Ends(t) == [r.endStation] + Ends(rest);
      if RouteKey(r.startStation, r.endStation) == RouteKey(start, end) {
        RouteKeyInjective(r.startStation, r.endStation, start, end);
      }
    }
  }

  /** What `station_stats` prints. */
  datatype StationReport = StationReport(
    topStarts: seq<string>, bottomStarts: seq<string>,
    topEnds: seq<string>, bottomEnds: seq<string>,
    topRoutes: seq<string>, bottomRoutes: seq<string>)

  /** From six distinct values on, the top and bottom lists of one column
      share no value. */
  lemma ApartFromSix(xs: seq<string>)
    ensures DistinctCount(xs) >= 6 ==> Disjoint(TopThree(xs).value, BottomThree(xs).value)
  {
    if DistinctCount(xs) >= 6 {
      TopAndBottomDisjoint(xs);
    }
  }

  /** `station_stats(df, ...)`: IndexError unless the start stations, the end
      stations and the routes each take at least three distinct values. */
  function Stats(t: seq<Trip>): (r: Result<StationReport>)
    ensures r.Ok? <==> DistinctCount(Starts(t)) >= 3 && DistinctCount(Ends(t)) >= 3
                       && DistinctCount(Routes(t)) >= 3
    ensures r.Raise? ==> r.failure == IndexError
    ensures r.Ok? ==> IsTopThree(Starts(t), r.value.topStarts) && IsBottomThree(Starts(t), r.value.bottomStarts)
    ensures r.Ok? ==> IsTopThree(Ends(t), r.value.topEnds) && IsBottomThree(Ends(t), r.value.bottomEnds)
    ensures r.Ok? ==> IsTopThree(Routes(t), r.value.topRoutes) && IsBottomThree(Routes(t), r.value.bottomRoutes)
    ensures r.Ok? && DistinctCount(Starts(t)) >= 6 ==> Disjoint(r.value.topStarts, r.value.bottomStarts)
    ensures r.Ok? && DistinctCount(Ends(t)) >= 6 ==> Disjoint(r.value.topEnds, r.value.bottomEnds)
    ensures r.Ok? && DistinctCount(Routes(t)) >= 6 ==> Disjoint(r.value.topRoutes, r.value.bottomRoutes)
  {
    ApartFromSix(Starts(t));
    ApartFromSix(Ends(t));
    ApartFromSix(Routes(t));
    var topStarts :- TopThree(Starts(t));
    var bottomStarts := BottomThree(Starts(t)).value;
    var topEnds :- TopThree(Ends(t));
    var bottomEnds := BottomThree(Ends(t)).value;
    var topRoutes :- TopThree(Routes(t));
    var bottomRoutes := BottomThree(Routes(t)).value;
    Ok(StationReport(topStarts, bottomStarts, topEnds, bottomEnds, topRoutes, bottomRoutes))
  }
}

=== FILE: time_stats.dfy ===
/** `time_stats`: the most and least common month over the unfiltered table,
    then the most and least common weekday within the selected month, then
    the most and least common start hour within the selected month and day.
 */
module TimeStats {
  import opened Errors
  import opened Seqs
  import opened Filters
  import opened Trips
  import opened Frequency
  import opened Loader

  /** What `time_stats` prints: month numbers with their names, weekday
      names, and hours on the 24-hour clock. */
  datatype TimeReport = TimeReport(
    mostMonth: nat, mostMonthName: string,
    leastMonth: nat, leastMonthName: string,
    mostDay: string, leastDay: string,
    mostHour: int, leastHour: int)

  /** `month_list[m]`: IndexError past the end of the list. */
  function MonthName(m: nat): (r: Result<string>)
    ensures r.Ok? <==> m < |MonthList|
    ensures r.Raise? ==> r.failure == IndexError
    ensures r.Ok? ==> r.value == MonthList[m]
  {
    if m < |MonthList| then Ok(MonthList[m]) else Raise(IndexError)
  }

  /** The rows within the selected month and day, as one mask over the table. */
  function Within(all: seq<Trip>, month: string, day: string): seq<Trip>
    requires IsMonth(month)
  {
    Select(all, (r: Trip) => Matches(month, MonthIndex(month).value, day, r))
  }

  /** The loader's month filter, and its month filter followed by its day
      filter, are the rows `Within` the selection; the day filter only drops
      rows. */
  lemma WithinFilters(all: seq<Trip>, month: string, day: string)
    requires IsMonth(month)
    ensures var monthIdx := MonthIndex(month).value;
      && ByMonth(all, month, monthIdx) == Within(all, month, "All")
      && ByDay(ByMonth(all, month, monthIdx), day) == Within(all, month, day)
      && |Within(all, month, day)| <= |Within(all, month, "All")|
  {
    var monthIdx := MonthIndex(month).value;
    FiltersAreOneMask(all, month, monthIdx, "All");
    FiltersAreOneMask(all, month, monthIdx, day);
  }

  /** The table is non-empty and its most and least common months both
      have a name in `month_list`, i.e. are January to June. */
  predicate MonthsNamed(all: seq<Trip>) {
    |all| > 0 &&
    var months := MostAndLeast(Months(all)).value;
    months.0 <= 6 && months.1 <= 6
  }

  /** `rep` reports, as month numbers 1 to 6 with their names, a most and a
      least common month of the whole table; a most and a least common
      weekday within the selected month; and a most and a least common hour
      within the selected month and day. */
  predicate Describes(all: seq<Trip>, month: string, day: string, rep: TimeReport)
    requires IsMonth(month)
  {
    && 1 <= rep.mostMonth <= 6 && rep.mostMonthName == MonthList[rep.mostMonth]
    && 1 <= rep.leastMonth <= 6 && rep.leastMonthName == MonthList[rep.leastMonth]
    && IsMostCommon(Months(all), rep.mostMonth as int)
    && IsLeastCommon(Months(all), rep.leastMonth as int)
    && IsMostCommon(DayNames(Within(all, month, "All")), rep.mostDay)
    && IsLeastCommon(DayNames(Within(all, month, "All")), rep.leastDay)
    && IsMostCommon(Hours(Within(all, month, day)), rep.mostHour)
    && IsLeastCommon(Hours(Within(all, month, day)), rep.leastHour)
  }

  /** The report `time_stats` prints once every step has succeeded. */
  function Report(all: seq<Trip>, month: string, day: string): (rep: TimeReport)
    requires MonthsNamed(all) && IsMonth(month) && |Within(all, month, day)| > 0
    ensures Describes(all, month, day, rep)
  {
    var months := MostAndLeast(Months(all)).value;
    var monthIdx := MonthIndex(month).value;
    WithinFilters(all, month, day);
    var byMonth := ByMonth(all, month, monthIdx);
    var byDay := ByDay(byMonth, day);
    var days := MostAndLeast(DayNames(byMonth)).value;
    var hours := MostAndLeast(Hours(byDay)).value;
    TimeReport(months.0 as nat, MonthList[months.0], months.1 as nat, MonthList[months.1],
               days.0, days.1, hours.0, hours.1)
  }

  /** `time_stats(df_all, city, month, day)`. Each step raises as the script
      does: ValueError on an empty table, IndexError for a most or least
      common month past June, ValueError for a month outside `month_list`,
      ValueError when the month or the day filter leaves no row. */
  function Stats(all: seq<Trip>, month: string, day: string): (r: Result<TimeReport>)
    ensures r.Ok? <==> MonthsNamed(all) && IsMonth(month) && |Within(all, month, day)| > 0
    ensures |all| == 0 ==> r == Raise(ValueError)
    ensures |all| > 0 && !MonthsNamed(all) ==> r == Raise(IndexError)
    ensures MonthsNamed(all) && !IsMonth(month) ==> r == Raise(ValueError)
    ensures MonthsNamed(all) && IsMonth(month) && |Within(all, month, day)| == 0 ==> r == Raise(ValueError)
    ensures r.Ok? ==> Describes(all, month, day, r.value)
  {
    if |all| == 0 then Raise(ValueError)
    else
      var months := MostAndLeast(Months(all)).value;
      if MonthName(months.0 as nat).Raise? || MonthName(months.1 as nat).Raise? then Raise(IndexError)
      else if !IsMonth(month) then Raise(ValueError)
      else
        var monthIdx := MonthIndex(month).value;
        WithinFilters(all, month, day);
        if |ByMonth(all, month, monthIdx)| == 0 then Raise(ValueError)
        else if |ByDay(ByMonth(all, month, monthIdx), day)| == 0 then Raise(ValueError)
        else Ok(Report(all, month, day))
  }

  /** The month step stated by counts, whatever value the tie order picks:
      it passes when every most common and every least common month is
      January to June, and raises IndexError when every most common month,
      or every least common month, is July or later. */
  lemma MonthStepByCounts(all: seq<Trip>, month: string, day: string)
    ensures (&& |all| > 0
             && (forall m :: IsMostCommon(Months(all), m) ==> m <= 6)
             && (forall m :: IsLeastCommon(Months(all), m) ==> m <= 6))
            ==> MonthsNamed(all)
    ensures |all| > 0 && (forall m :: IsMostCommon(Months(all), m) ==> m > 6) ==> Stats(all, month, day) == Raise(IndexError)
    ensures |all| > 0 && (forall m :: IsLeastCommon(Months(all), m) ==> m > 6) ==> Stats(all, month, day) == Raise(IndexError)
  {
  }

  /** Selecting a month in which no trip of the table starts (February
      for a city whose file holds only March rides, say) never yields a
      report: once the month step is passed, `time_stats` raises ValueError
      at the weekday step. */
  lemma MonthWithoutTripsRaises(all: seq<Trip>, month: string, day: string)
    requires IsMonth(month) && month != "All"
    requires forall i :: 0 <= i < |all| ==> all[i].month != MonthIndex(month).value
    ensures Stats(all, month, day).Raise?
    ensures MonthsNamed(all) ==> Stats(all, month, day) == Raise(ValueError)
  {
  }

  /** The hour statistics are taken over exactly the filtered table the loader
      returns for the same selection, so the reporter agrees with `load_data`. */
  lemma HoursOverLoadedTable(city: string, month: string, day: string, rows: seq<Trip>)
    requires IsCity(city)
    ensures Stats(rows, month, day).Ok? ==>
              LoadData(city, month, day, rows).Ok? &&
              IsMostCommon(Hours(LoadData(city, month, day, rows).value.filtered),
                           Stats(rows, month, day).value.mostHour) &&
              IsLeastCommon(Hours(LoadData(city, month, day, rows).value.filtered),
                            Stats(rows, month, day).value.leastHour)
  {
    if Stats(rows, month, day).Ok? {
      var monthIdx := MonthIndex(month).value;
      FiltersAreOneMask(rows, month, monthIdx, day);
    }
  }

  /** `plt.hist(df['month'], bins=6, range=(0.5, 6.5))`: bar `k` counts
      the rows of month `k + 1`, January to June. */
  function MonthBins(months: seq<int>): (r: seq<nat>)
    ensures |r| == 6
    ensures forall k :: 0 <= k < 6 ==> r[k] <= |months|
    ensures forall k :: 0 <= k < 6 ==> (r[k] > 0 <==> k + 1 in months)
  {
    [Count(months, 1), Count(months, 2), Count(months, 3),
     Count(months, 4), Count(months, 5), Count(months, 6)]
  }

  /** The sum of a sequence of counts. */
  function Sum(xs: seq<nat>): nat {
    if xs == [] then 0 else xs[0] + Sum(xs[1..])
  }

  /** The number of month values outside the histogram's range (0.5, 6.5). */
  function OutOfRange(months: seq<int>): nat {
    if months == [] then 0
    else (if 1 <= months[0] <= 6 then 0 else 1) + OutOfRange(months[1..])
  }

  lemma SumOfSix(b: seq<nat>)
    requires |b| == 6
    ensures Sum(b) == b[0] + b[1] + b[2] + b[3] + b[4] + b[5]
  {
    assert b[5..][1..] == [];
    assert Sum(b[5..]) == b[5];
    assert b[4..][1..] == b[5..];
    assert Sum(b[4..]) == b[4] + b[5];
    assert b[3..][1..] == b[4..];
    assert Sum(b[3..]) == b[3] + b[4] + b[5];
    assert b[2..][1..] == b[3..];
    assert Sum(b[2..]) == b[2] + b[3] + b[4] + b[5];
    assert b[1..][1..] == b[2..];
    assert Sum(b[1..]) == b[1] + b[2] + b[3] + b[4] + b[5];
  }

  /** One more month value adds one to the bars exactly when it is in range. */
  lemma BinsCons(x: int, rest: seq<int>)
    ensures Sum(MonthBins([x] + rest)) == Sum(MonthBins(rest)) + if 1 <= x <= 6 then 1 else 0
  {
    var b, c := MonthBins([x] + rest), MonthBins(rest);
    SumOfSix(b);
    SumOfSix(c);
    assert multiset([x] + rest) == multiset{x} + multiset(rest);
    assert b[0] == c[0] + (if x == 1 then 1 else 0);
    assert b[1] == c[1] + (if x == 2 then 1 else 0);
    assert b[2] == c[2] + (if x == 3 then 1 else 0);
    assert b[3] == c[3] + (if x == 4 then 1 else 0);
    assert b[4] == c[4] + (if x == 5 then 1 else 0);
    assert b[5] == c[5] + (if x == 6 then 1 else 0);
  }

  /** The six bars together count every month value in their range: each
      value falls in exactly one bar or outside all of them. */
  lemma {:induction false} BinsCountInRange(months: seq<int>)
    ensures Sum(MonthBins(months)) + OutOfRange(months) == |months|
    decreases |months|
  {
    if months == [] {
      SumOfSix(MonthBins(months));
    } else {
      var rest := months[1..];
      BinsCountInRange(rest);
      assert months == [months[0]] + rest;
      BinsCons(months[0], rest);
    }
  }

  lemma {:induction false} NothingOutOfRange(months: seq<int>)
    ensures OutOfRange(months) == 0 <==> forall i :: 0 <= i < |months| ==> 1 <= months[i] <= 6
    decreases |months|
  {
    if months != [] {
      NothingOutOfRange(months[1..]);
      assert forall i :: 0 < i < |months| ==> months[i] == months[1..][i - 1];
    }
  }

  /** The bars of the month histogram count every ride except those of July
      to December, which fall outside its range; they count every ride
      exactly when all rides are from January to June. */
  lemma MonthHistogramTotal(all: seq<Trip>)
    ensures Sum(MonthBins(Months(all))) <= |all|
    ensures Sum(MonthBins(Months(all))) == |all| <==> forall i :: 0 <= i < |all| ==> all[i].month <= 6
  {
    var months := Months(all);
    BinsCountInRange(months);
    NothingOutOfRange(months);
    assert forall i :: 0 <= i < |all| ==> months[i] == all[i].month as int;
  }
}

=== FILE: trips.dfy ===
/** One bike-share ride and the columns the statistics read.

    Timestamps are taken as already parsed: a trip carries the calendar
    fields the loader derives from its start time (month number, weekday
    name, weekday number, hour). Empty (NaN) cells of the optional
    demographic columns are `None`.
 */
module Trips {
  import opened Errors
  import opened Seqs

  /** `Start Time.dt.month`. */
  type MonthNumber = m: int | 1 <= m <= 12 witness 1
  /** `Start Time.dt.weekday`: Monday is 0. */
  type WeekdayNumber = d: int | 0 <= d <= 6
  /** `Start Time.dt.hour`. */
  type HourOfDay = h: int | 0 <= h <= 23

  datatype Trip = Trip(
    startTime: string,
    endTime: string,
    duration: int,          // `Trip Duration`, in seconds
    startStation: string,
    endStation: string,
    userType: string,
    gender: Option<string>,
    birthYear: Option<int>,
    month: MonthNumber,     // derived `month`
    dayName: string,        // derived `day_str`
    dayNumber: WeekdayNumber,  // derived `day_int`
    hour: HourOfDay)        // derived `hour`

  function Months(t: seq<Trip>): (r: seq<int>)
    ensures forall v :: v in r ==> 1 <= v <= 12
  {
    MapSeq(t, (r: Trip) => r.month as int)
  }
  function DayNames(t: seq<Trip>): seq<string> { MapSeq(t, (r: Trip) => r.dayName) }
  function Hours(t: seq<Trip>): seq<int> { MapSeq(t, (r: Trip) => r.hour as int) }
  function Starts(t: seq<Trip>): seq<string> { MapSeq(t, (r: Trip) => r.startStation) }
  function Ends(t: seq<Trip>): seq<string> { MapSeq(t, (r: Trip) => r.endStation) }
  function UserTypes(t: seq<Trip>): seq<string> { MapSeq(t, (r: Trip) => r.userType) }

  /** The values of an optional column with its empty cells dropped, as
      pandas' `value_counts`, `min` and `max` skip NaN: every present value
      is kept as often as the column holds it. */
  function Present<T(==,!new)>(xs: seq<Option<T>>): (r: seq<T>)
    ensures |r| == |xs| - Count(xs, None)
    ensures forall v :: Count(r, v) == Count(xs, Some(v))
    ensures forall v :: v in r <==> Some(v) in xs
  {
    if xs == [] then []
    else
      assert xs == [xs[0]] + xs[1..];
      (if xs[0].Some? then [xs[0].value] else []) + Present(xs[1..])
  }

  function Genders(t: seq<Trip>): seq<string> { Present(MapSeq(t, (r: Trip) => r.gender)) }
  function BirthYears(t: seq<Trip>): seq<int> { Present(MapSeq(t, (r: Trip) => r.birthYear)) }
}

=== FILE: user_stats.dfy ===
/** `user_stats`: counts per user type and per gender, and the earliest,
    latest and most common birth year of the filtered table.
 */
module UserStats {
  import opened Errors
  import opened Seqs
  import opened Trips
  import opened Frequency

  /** The smallest value of a non-empty column, `Series.min()`. */
  function MinOf(xs: seq<int>): (m: int)
    requires |xs| > 0
    ensures m in xs
    ensures forall i :: 0 <= i < |xs| ==> m <= xs[i]
  {
    if |xs| == 1 then xs[0]
    else
      var rest := MinOf(xs[1..]);
      if xs[0] <= rest then xs[0] else rest
  }

  /** The largest value of a non-empty column, `Series.max()`. */
  function MaxOf(xs: seq<int>): (m: int)
    requires |xs| > 0
    ensures m in xs
    ensures forall i :: 0 <= i < |xs| ==> xs[i] <= m
  {
    if |xs| == 1 then xs[0]
    else
      var rest := MaxOf(xs[1..]);
      if xs[0] >= rest then xs[0] else rest
  }

  /** What `user_stats` prints. */
  datatype UserReport = UserReport(
    userTypes: seq<(string, nat)>,
    genders: seq<(string, nat)>,
    earliestBirthYear: int,
    latestBirthYear: int,
    commonBirthYear: int)

  /** `user_stats(df, ...)`: ValueError when no row has a birth year, since
      `idxmax` of an empty count fails (min and max of an empty column only
      give NaN). The tallies skip empty cells, as `value_counts` does. */
  function Stats(t: seq<Trip>): (r: Result<UserReport>)
    ensures r.Ok? <==> |BirthYears(t)| > 0
    ensures r.Raise? ==> r.failure == ValueError
    ensures r.Ok? ==> r.value.userTypes == Tally(UserTypes(t)) && r.value.genders == Tally(Genders(t))
    ensures r.Ok? ==> Total(r.value.userTypes) == |t|
    ensures r.Ok? ==> Total(r.value.genders) == |Genders(t)|
    ensures r.Ok? ==> forall i :: 0 <= i < |r.value.genders| ==>
              r.value.genders[i].1 == Count(MapSeq(t, (x: Trip) => x.gender), Some(r.value.genders[i].0))
    ensures r.Ok? ==> forall i :: 0 <= i < |t| && t[i].birthYear.Some? ==>
              r.value.earliestBirthYear <= t[i].birthYear.value <= r.value.latestBirthYear
    ensures r.Ok? ==> Some(r.value.earliestBirthYear) in MapSeq(t, (x: Trip) => x.birthYear)
    ensures r.Ok? ==> Some(r.value.latestBirthYear) in MapSeq(t, (x: Trip) => x.birthYear)
    ensures r.Ok? ==> IsMostCommon(BirthYears(t), r.value.commonBirthYear)
  {
    var years := BirthYears(t);
    if |years| == 0 then Raise(ValueError)
    else
      var common := MostAndLeast(years).value.0;
      TallyTotal(UserTypes(t));
      TallyTotal(Genders(t));
      var lo, hi := MinOf(years), MaxOf(years);
      assert forall i :: 0 <= i < |t| && t[i].birthYear.Some? ==> t[i].birthYear.value in years by {
        forall i | 0 <= i < |t| && t[i].birthYear.Some?
          ensures t[i].birthYear.value in years
        {
          assert MapSeq(t, (x: Trip) => x.birthYear)[i] == t[i].birthYear;
        }
      }
      Ok(UserReport(Tally(UserTypes(t)), Tally(Genders(t)), lo, hi, common))
  }
}
